=== FILE: README.md ===
# Copilot chat client: conversation session and chat thread

A Dafny model of the two pieces of logic in a browser client for the
Microsoft 365 Copilot Chat API:

- **`CopilotService`** (`src/services/copilotService.js`). The client keeps
  a single conversation id. `sendMessage` creates the conversation lazily
  on the first send. When a post is answered with HTTP 404, it clears the
  id and runs once more as a retry. `resetConversation` forgets the id, and
  `getConversation` refuses to run without one, throwing the bare message
  "No active conversation" before any request. Every failed remote request
  that the 404 retry does not recover is rethrown with a fixed prefix, followed by the server's `error.message`
  when it is non-empty and by the transport's message otherwise.
- **`ChatInterface`** (`src/components/ChatInterface.jsx`).
  `extractCopilotReply` picks the text of the last response message out of
  a chat response. The state transitions of `handleSendMessage` and
  `handleNewConversation` act on the React state `{messages, inputMessage,
  isLoading, error}` together with the shared service.

Every operation is a pure function. The service is an immutable record
`Service(conversationId: Option<string>)`. The network is a `Net`: the
answers the server gives to the client's requests, in request order. An
operation reads its answers starting at an index `at`. It returns a `Step`
holding the new state, the requests it issued paired with the answers they
got (its trace), and either the returned value or the message of the
thrown `Error`. An answer is `Ok(body)` or `HttpErr(status, remoteMsg,
transportMsg)`. JavaScript truthiness is modelled exactly:
`!this.conversationId` also holds for an empty-string id, and `a || b`
falls back when `a` is empty.

Files:

| file | module | models |
|---|---|---|
| `wrappers.dfy` | `Wrappers` | `Option`, and `Result` for a returned value or a thrown message |
| `text.dfy` | `Text` | `String.prototype.includes` and `String.prototype.trim` |
| `remote.dfy` | `Remote` | response bodies, answers, requests, traces, error-text selection |
| `copilot_service.dfy` | `CopilotService` | the service and its four operations |
| `reply.dfy` | `Reply` | `extractCopilotReply` |
| `chat_interface.dfy` | `ChatInterface` | the component state and its transitions |

## Model

| member | source | states |
|---|---|---|
| `CopilotService.New` | src/services/copilotService.js:14-16 | a freshly constructed service holds no conversation id |
| `CopilotService.ResetConversation` | src/services/copilotService.js:94-96 | after a reset no conversation is held, whatever the state before; the state is that of a fresh service, so resetting is idempotent and needs no request |
| `CopilotService.CreateConversation` | src/services/copilotService.js:23-41 | exactly one create request; it succeeds iff the answer is a 2xx response; on success the id stored and the id returned are both the body's `id`; on failure the state is unchanged and the message is "Failed to create conversation: " followed by the error text |
| `CopilotService.AttemptShape` | src/services/copilotService.js:52-76 | one pass through the `try` block of `sendMessage`. With an id held, it makes one post to that id and keeps the id. With none held and a failing create, it makes one create request, leaves the state unchanged and fails with the send prefix, then the create prefix, then the create's error text. With none held and a successful create, it makes a create and then a post to the created id, and stores that id |
| `CopilotService.AttemptSpec` | src/services/copilotService.js:52-76 | one attempt consumes the network's answers in request order; it starts with a create exactly when no id is held; it ends as `SendEnded` says |
| `CopilotService.AttemptCounts` | src/services/copilotService.js:53-57 | one attempt creates exactly when no id is held and posts at most once; every request is a create or a post |
| `CopilotService.SendMessage` | src/services/copilotService.js:51-89 | a `sendMessage` issues 1 to 4 requests; the retry issues at most 2 |
| `CopilotService.Retry` | src/services/copilotService.js:81-85 | the recovery branch issues the failed attempt's requests first and then at least one more (those of the retry), 2 to 4 requests in all |
| `CopilotService.SendMessageAnswered` | src/services/copilotService.js:51-89 | every request of `sendMessage`, retry included, acts on the network's next answer in order |
| `CopilotService.SendMessageBounds` | src/services/copilotService.js:81-85 | one external `sendMessage` makes at most 2 posts. It makes at most 2 creates, and none on the first attempt when an id is held. The retry makes at most one post and one create. Every request is a create or a post |
| `CopilotService.SendMessageFirstCall` | src/services/copilotService.js:53-58 | the first request of `sendMessage` is a post to the held id when one is held, and a create otherwise |
| `CopilotService.SendMessageEnded` | src/services/copilotService.js:73-87 | on success, the result is the body of the last request, a post to the id now held. On failure, the last request failed, and the message is "Failed to send message: " followed by that request's error text, with the create prefix in between when that request was a create. A retry's outcome is the call's outcome |
| `CopilotService.GetConversation` | src/services/copilotService.js:103-122 | the state never changes. With no id held, the call throws "No active conversation" and sends nothing. With an id held, it sends one request to that id and returns the body, or throws "Failed to get conversation: " followed by the error text |
| `CopilotService.SendReusesConversation` | src/services/copilotService.js:53-73 | with an id held and the post answered, it sends one post to the held id, keeps the id and returns the body; no create |
| `CopilotService.SendCreatesLazily` | src/services/copilotService.js:53-73 | with no id held and both requests answered, it sends a create, then one post to the created id, stores the id and returns the post's body |
| `CopilotService.CreateFailureNotRetried` | src/services/copilotService.js:74-87 | a failed create inside `sendMessage` is never retried, even one answered with 404. It is the only request, the state is unchanged, and the message is "Failed to send message: Failed to create conversation: " followed by the error text |
| `CopilotService.PostFailureNotRetried` | src/services/copilotService.js:74-87 | with an id held, a failed post whose status is not 404, or any failed post of a call made with `isRetry` set, is the only request and is thrown at once with the send prefix; the held id is unchanged |
| `CopilotService.CreatedPostFailureNotRetried` | src/services/copilotService.js:53-87 | with no id held, a successful create followed by a failed post is thrown at once when the post's status is not 404 or the call is the retry, which covers every failure of the retry's own post; two requests, the created id stays held, and the message is the send prefix followed by the post's error text |
| `CopilotService.NotFoundRecovers` | src/services/copilotService.js:81-85 | one retry cycle that recovers: from a held id, a post answered 404, a create answered Ok and a post answered Ok make exactly three requests (post to the old id, create, post to the created id); the created id is stored and the second post's body is returned |
| `CopilotService.RetryNotFoundThrows` | src/services/copilotService.js:81-87 | the retry never retries. A 404 on its post is thrown with the send prefix, and the id created during the retry stays held |
| `CopilotService.NotFoundTwiceFails` | src/services/copilotService.js:74-88 | the full recovery path is post, create, post: three requests with one create and two posts. It ends in the error of the second 404 and keeps the id the retry created |
| `CopilotService.HealthySendsCreateOnce` | src/services/copilotService.js:53-55 | when every answer succeeds with a usable id, a run of sends makes one post per text. It makes a single create, and only if no id was held at the start. Afterwards a conversation is held |
| `CopilotService.SendMessageId` | src/services/copilotService.js:51-89 | after `sendMessage` the service holds the id it held before, no id (a 404 cleared it and the retry's create failed), or the id returned by a successful create among its own requests |
| `CopilotService.CreateThenGet` | src/services/copilotService.js:103-110 | after a successful create, `getConversation` requests the returned id when it is a non-empty string; an empty or missing id counts as no conversation, so the get is refused with "No active conversation" and sends nothing |
| `CopilotService.ResetThenGet` | src/services/copilotService.js:94-106 | after a reset, whatever was held, `getConversation` is refused with "No active conversation", sends nothing and leaves a fresh service |
| `Text.ContainsSpec` | src/components/ChatInterface.jsx:55 | the scan behind `includes` answers true exactly when the fragment occurs somewhere in the string |
| `Text.TrimSpec` | src/components/ChatInterface.jsx:68-70 | `trim()` yields a slice of the input whose surroundings are all whitespace and whose ends are not; the result is empty exactly when the input is blank |
| `Text.TrimIdempotent` | src/components/ChatInterface.jsx:70 | a trimmed text is left unchanged by trimming again |
| `Reply.Candidates` | src/components/ChatInterface.jsx:54-55 | the filter keeps only response messages taken from the input and never lengthens it |
| `Reply.CandidatesEmpty` | src/components/ChatInterface.jsx:54-55 | the filter finds nothing exactly when no message's `@odata.type` contains the response tag |
| `Reply.LastCandidate` | src/components/ChatInterface.jsx:54-56 | `pop()` takes the last response message in sequence order |
| `Reply.ExtractCopilotReply` | src/components/ChatInterface.jsx:47-64 | a reply is never empty, and it is the `text` of a response message of the body |
| `Reply.ReplyFromLastResponse` | src/components/ChatInterface.jsx:54-63 | the reply is the last response message's text when that is non-empty, and null otherwise |
| `Reply.NoResponseNoReply` | src/components/ChatInterface.jsx:50-63 | without a response message, including when there is no `messages` field, the reply is null |
| `Reply.ReplySpec` | src/components/ChatInterface.jsx:47-64 | both directions: `t` is extracted iff the last response message carries the non-empty text `t` |
| `ChatInterface.Initial` | src/components/ChatInterface.jsx:12-15 | the first render has an empty thread, no banner, no send outstanding and no conversation, and its thread is well formed |
| `ChatInterface.SendTurn` | src/components/ChatInterface.jsx:84-98 | whatever the `try` block of `handleSendMessage` throws carries a non-empty message, and an extracted reply is non-empty |
| `ChatInterface.HandleSendMessage` | src/components/ChatInterface.jsx:66-126 | with a blank input or a send outstanding, nothing changes and nothing is sent. Otherwise earlier entries stay in place, the trimmed user text is appended, then exactly one non-user, non-empty entry. The input is cleared and loading stops. The banner is clear exactly when a reply was appended, and otherwise shows the error entry's text |
| `ChatInterface.SendOutcomeRecorded` | src/components/ChatInterface.jsx:93-122 | the appended entry is an assistant entry carrying the reply exactly when the exchange succeeded; otherwise it is an error entry carrying the thrown message. A null reply is therefore never shown as an assistant entry |
| `ChatInterface.AssistantEntryOnlyFromReply` | src/components/ChatInterface.jsx:87-107 | both directions: a send appends the assistant entry with text `t` exactly when a token was obtained, `sendMessage` returned a body and `t` is the reply extracted from it; a null reply never becomes an assistant entry |
| `ChatInterface.TokenFailureRecorded` | src/components/ChatInterface.jsx:26-42 | when neither the silent nor the popup attempt yields a token, the send makes no request and leaves the service alone; the thread ends with an error entry "Failed to acquire access token", and the banner shows the same text |
| `ChatInterface.PopupFallback` | src/components/ChatInterface.jsx:26-42 | the popup is consulted only after the silent attempt fails: a send using the popup's token is identical to one whose silent attempt gave that token, and once the silent attempt succeeds the popup's answer changes nothing |
| `ChatInterface.HandleNewConversation` | src/components/ChatInterface.jsx:128-133 | the service holds no conversation, the thread is empty and the banner is cleared; the input and the loading flag are untouched |
| `ChatInterface.EditInput` | src/components/ChatInterface.jsx:237 | typing replaces the input and touches nothing else |
| `ChatInterface.SendKeepsWellFormed` | src/components/ChatInterface.jsx:68-122 | a send keeps the thread a sequence of turns: a non-empty trimmed user text followed by one non-empty assistant or error entry |
| `ChatInterface.ApplyWellFormed` | src/components/ChatInterface.jsx:66-133 | every user action, a send taken as one step from click to settled reply, keeps the thread well formed; with `ChatInterface.Initial` the invariant holds in every state reached through whole actions |
| `ChatInterface.ApplyKeepsHistory` | src/components/ChatInterface.jsx:81-122 | apart from "New Chat", an action only appends to the thread; however the network and the identity provider answer, earlier entries are never lost or reordered |

## Left out

- HTTP: the axios calls, endpoint URLs, headers and request bodies, including the `Intl` time-zone hint, are not modelled. Each request is a `Call` that records what the client chose: a create, a post carrying the text to the id as interpolated into the URL, or a get. Each answer is an abstract `Outcome`.
- The network: a `Net` is a finite list of answers followed by one repeated answer. Every finite run reads finitely many answers, so every run of the client is covered.
- Response shapes: the model takes a 2xx response body to be a JSON object whose `id`, `@odata.type` and `text` fields are strings or absent, and whose `messages`, when present, is an array of objects. In the program a `null` create or chat body, a truthy non-array `messages` or a `null` element of `messages` makes the client throw a `TypeError` (`src/services/copilotService.js:36`, `src/components/ChatInterface.jsx:50-55`), and so does an `@odata.type` that is a number or another value without an `includes` method. A non-string `id` is stored and put into the URL as it is. A non-string truthy `text` is shown as the reply. An array-valued `@odata.type` is searched with the array's own `includes`. A `null` body from `getConversation` is returned as it is. None of these is modelled.
- Token acquisition: MSAL is a foreign library. `getAccessToken` is modelled only as "silent token, else popup token, else the fixed token error", with the two attempts' answers given as parameters (`Identity`).
- Entry ids and timestamps (`Date.now()`, `new Date()`), `formatTime`, scrolling, all JSX rendering and `console` logging are presentation only.
- `Hearts.jsx`, `App.jsx`, `LoginButton.jsx` and `authConfig.js` are not part of this model.
- Concurrency: a send is one step, from the click to the settled reply, so states in the middle of a send are not modelled. The input is disabled while a send is outstanding, so sends cannot overlap. The "New Chat" button (`src/components/ChatInterface.jsx:161-166`) is not disabled, though, and a click during a send is not modelled. In the program that click empties the thread, and the outstanding send then appends its reply or error entry to the empty thread (lines 107 and 122 update from the previous state). The thread then starts with a non-user entry, which the model's thread invariant excludes. A create still in flight at the click also stores its id again after the reset (`src/services/copilotService.js:36`).
- The "New Chat" button is rendered only while the thread is non-empty. The model lets the action happen at any time; on an empty thread its effect is only to reset the service.
- Sessions: the thread invariants are stated per action (`ChatInterface.ApplyWellFormed`, `ChatInterface.ApplyKeepsHistory`). There is no function composing a whole session of actions, and no lemma lifting the invariants to one.
- Strings are sequences of Unicode scalar values, not UTF-16 code units. `includes` and `trim` therefore match JavaScript on all strings that contain no lone surrogates.
- The fallback texts "Failed to send message. Please try again." and "Something went wrong. Please try again." are part of the model (`MessageOr`). `ChatInterface.SendTurn` shows they never appear, because every error that can reach the `catch` carries a non-empty message.

=== FILE: chat_interface.dfy ===
/** The state logic of the `ChatInterface` component: the thread of chat
    entries, the input box, the loading flag and the error banner, and the
    transitions `handleSendMessage` and `handleNewConversation` make on
    them together with the shared service. Entry ids and timestamps,
    rendering and scrolling are not modelled. */
module ChatInterface {
  import opened Wrappers
  import opened Remote
  import opened CopilotService
  import Reply
  import Text

  datatype Role = UserRole | AssistantRole | ErrorRole

  /** One entry of the rendered thread. */
  datatype Entry = Entry(role: Role, content: string)

  /** The component's React state. */
  datatype Ui = Ui(messages: seq<Entry>, inputMessage: string, isLoading: bool, error: Option<string>)

  /** The component together with the service instance it talks to. */
  datatype App = App(ui: Ui, service: Service)

  /** The identity provider's answers to one token request: the silent
      attempt and the popup attempt, `None` where that attempt throws. */
  datatype Identity = Identity(silent: Option<string>, popup: Option<string>)

  /** A transition and the remote requests it issued. */
  datatype Effect = Effect(app: App, trace: seq<Exchange>)

  const TokenFailure := "Failed to acquire access token"
  const NoReplyFailure := "Copilot did not provide a response. This could be due to:\n- Insufficient data to answer your question\n- Missing permissions\n- Service timeout\n\nTry rephrasing your question or asking about specific M365 data (emails, meetings, files)."
  const BannerFallback := "Failed to send message. Please try again."
  const EntryFallback := "Something went wrong. Please try again."

  /** The state on first render. */
  function Initial(): (app: App)
    ensures app.ui.messages == [] && !app.ui.isLoading && app.ui.error.None?
    ensures !HasConversation(app.service)
    ensures WellFormed(app.ui)
  {
    App(Ui([], "", false, None), New())
  }

  /** `getAccessToken`: the silent token when that attempt succeeds, else
      the popup's, else the token error. */
  function GetAccessToken(id: Identity): (r: Result<string>)
    ensures r.Success? <==> id.silent.Some? || id.popup.Some?
    ensures id.silent.Some? ==> r == Success(id.silent.value)
    ensures id.silent.None? && id.popup.Some? ==> r == Success(id.popup.value)
    ensures r.Failure? ==> r.error == TokenFailure
  {
    if id.silent.Some? then Success(id.silent.value)
    else if id.popup.Some? then Success(id.popup.value)
    else Failure(TokenFailure)
  }

  /** `err.message || fallback`. */
  function MessageOr(message: string, fallback: string): string {
    if message != "" then message else fallback
  }

  /** The send button is enabled and the handler proceeds: the trimmed
      input is not empty and no send is outstanding. */
  predicate CanSend(ui: Ui) {
    Text.Trim(ui.inputMessage) != "" && !ui.isLoading
  }

  /** The state while a send is outstanding: input cleared, banner
      cleared, the user's trimmed text appended, loading. */
  function BeginSend(ui: Ui): (u: Ui)
    ensures u.messages == ui.messages + [Entry(UserRole, Text.Trim(ui.inputMessage))]
    ensures u.inputMessage == "" && u.isLoading && u.error.None?
  {
    Ui(ui.messages + [Entry(UserRole, Text.Trim(ui.inputMessage))], "", true, None)
  }

  /** The `try` block of `handleSendMessage`: obtain a token, send through
      the service, extract the reply; any of the three may throw. Whatever
      is thrown carries a non-empty message, and a reply is never empty. */
  function SendTurn(s: Service, id: Identity, net: Net, at: nat, text: string): (st: Step<string>)
    ensures st.result.Success? ==> st.result.value != ""
    ensures st.result.Failure? ==> st.result.error != ""
  {
    var token := GetAccessToken(id);
    if token.Failure? then Step(s, [], Failure(token.error))
    else
      var sent := SendMessage(s, net, at, token.value, text, false);
      SendMessageEnded(s, net, at, token.value, text, false);
      if sent.result.Failure? then Step(sent.service, sent.trace, Failure(sent.result.error))
      else
        var reply := Reply.ExtractCopilotReply(sent.result.value);
        if reply.None? then Step(sent.service, sent.trace, Failure(NoReplyFailure))
        else Step(sent.service, sent.trace, Success(reply.value))
  }

  /** What the exchange does: a token failure issues no request and leaves
      the service alone; otherwise the service and the requests are those
      of `sendMessage`, whose error is rethrown as is, and a response
      without a usable reply becomes the no-reply error. */
  lemma ExchangeOutcome(s: Service, id: Identity, net: Net, at: nat, text: string)
    ensures var st := SendTurn(s, id, net, at, text);
      && (GetAccessToken(id).Failure? ==> st == Step(s, [], Failure(TokenFailure)))
      && (GetAccessToken(id).Success? ==>
            var sent := SendMessage(s, net, at, GetAccessToken(id).value, text, false);
            && st.service == sent.service && st.trace == sent.trace
            && (sent.result.Failure? ==> st.result == Failure(sent.result.error))
            && (sent.result.Success? ==>
                  var reply := Reply.ExtractCopilotReply(sent.result.value);
                  st.result == if reply.Some? then Success(reply.value) else Failure(NoReplyFailure)))
  {
  }

  /** The `catch` and `finally` of `handleSendMessage`: append the reply,
      or record the error in the banner and the thread; stop loading. */
  function Settle(ui: Ui, outcome: Result<string>): (u: Ui)
    ensures u.inputMessage == ui.inputMessage && !u.isLoading
    ensures outcome.Success? ==>
      u.messages == ui.messages + [Entry(AssistantRole, outcome.value)] && u.error == ui.error
    ensures outcome.Failure? ==>
      && u.messages == ui.messages + [Entry(ErrorRole, MessageOr(outcome.error, EntryFallback))]
      && u.error == Some(MessageOr(outcome.error, BannerFallback))
  {
    match outcome
    case Success(reply) =>
      ui.(messages := ui.messages + [Entry(AssistantRole, reply)], isLoading := false)
    case Failure(message) =>
      ui.(error := Some(MessageOr(message, BannerFallback)),
          messages := ui.messages + [Entry(ErrorRole, MessageOr(message, EntryFallback))],
          isLoading := false)
  }

  /** How one send changes the component's state: the thread gains the
      user's trimmed text and exactly one non-user entry after it, earlier
      entries stay in place, the input is cleared and loading has stopped;
      the banner is clear exactly when a reply was appended, and otherwise
      shows the text of the error entry. */
  ghost predicate SendAppended(before: Ui, after: Ui) {
    var m := after.messages;
    var n := |before.messages|;
    && |m| == n + 2
    && m[..n] == before.messages
    && m[n] == Entry(UserRole, Text.Trim(before.inputMessage))
    && m[n + 1].role != UserRole
    && m[n + 1].content != ""
    && after.inputMessage == "" && !after.isLoading
    && (after.error.None? <==> m[n + 1].role == AssistantRole)
    && (m[n + 1].role == ErrorRole ==> after.error == Some(m[n + 1].content))
  }

  /** `handleSendMessage`: a no-op unless `CanSend`; otherwise append the
      user's trimmed text, run the exchange, and append exactly one more
      entry — the reply, or the error that ended the exchange. */
  function HandleSendMessage(app: App, id: Identity, net: Net, at: nat): (e: Effect)
    ensures !CanSend(app.ui) ==> e == Effect(app, [])
    ensures CanSend(app.ui) ==> SendAppended(app.ui, e.app.ui)
  {
    if !CanSend(app.ui) then Effect(app, [])
    else
      var st := SendTurn(app.service, id, net, at, Text.Trim(app.ui.inputMessage));
      Effect(App(Settle(BeginSend(app.ui), st.result), st.service), st.trace)
  }

  /** Which entry a send appends: the assistant's reply exactly when a
      token was obtained, `sendMessage` returned and a reply could be
      extracted — with that reply as its text; an error entry carrying the
      thrown message otherwise. A response without a usable reply is
      therefore never shown as an assistant entry. */
  lemma SendOutcomeRecorded(app: App, id: Identity, net: Net, at: nat)
    requires CanSend(app.ui)
    ensures var e := HandleSendMessage(app, id, net, at);
      var st := SendTurn(app.service, id, net, at, Text.Trim(app.ui.inputMessage));
      var last := e.app.ui.messages[|e.app.ui.messages| - 1];
      && e.app.service == st.service && e.trace == st.trace
      && (st.result.Success? ==> last == Entry(AssistantRole, st.result.value))
      && (st.result.Failure? ==> last == Entry(ErrorRole, st.result.error))
  {
  }

  /** An assistant entry with text `t` is appended exactly when a token
      was obtained, `sendMessage` returned a body, and `t` is the reply
      extracted from it; a null reply never becomes an assistant entry. */
  lemma AssistantEntryOnlyFromReply(app: App, id: Identity, net: Net, at: nat, t: string)
    requires CanSend(app.ui)
    ensures var m := HandleSendMessage(app, id, net, at).app.ui.messages;
      m[|m| - 1] == Entry(AssistantRole, t) <==>
        && GetAccessToken(id).Success?
        && var sent := SendMessage(app.service, net, at, GetAccessToken(id).value, Text.Trim(app.ui.inputMessage), false);
           && sent.result.Success?
           && Reply.ExtractCopilotReply(sent.result.value) == Some(t)
  {
    ExchangeOutcome(app.service, id, net, at, Text.Trim(app.ui.inputMessage));
    SendOutcomeRecorded(app, id, net, at);
  }

  /** Without a token the send stops before the service: no request is
      made, the service is untouched, and the token error is both the
      appended error entry and the banner. */
  lemma TokenFailureRecorded(app: App, net: Net, at: nat)
    requires CanSend(app.ui)
    ensures var e := HandleSendMessage(app, Identity(None, None), net, at);
      var m := e.app.ui.messages;
      && e.trace == [] && e.app.service == app.service
      && m[|m| - 1] == Entry(ErrorRole, TokenFailure)
      && e.app.ui.error == Some(TokenFailure)
  {
    SendOutcomeRecorded(app, Identity(None, None), net, at);
  }

  /** The popup is only a fallback: when the silent attempt fails, a send
      with the popup's token behaves exactly as a send whose silent attempt
      returned that token, and when the silent attempt succeeds the popup's
      answer does not matter. */
  lemma PopupFallback(app: App, net: Net, at: nat, token: string, popup: Option<string>)
    ensures HandleSendMessage(app, Identity(None, Some(token)), net, at)
         == HandleSendMessage(app, Identity(Some(token), popup), net, at)
  {
  }

  /** `handleNewConversation`: forget the service's conversation, empty
      the thread and clear the banner; no request, input and loading flag
      untouched. */
  function HandleNewConversation(app: App): (a: App)
    ensures a.ui.messages == [] && a.ui.error.None?
    ensures !HasConversation(a.service)
    ensures a.ui.inputMessage == app.ui.inputMessage && a.ui.isLoading == app.ui.isLoading
  {
    App(app.ui.(messages := [], error := None), ResetConversation(app.service))
  }

  /** `setInputMessage` from typing or a suggestion chip. */
  function EditInput(app: App, text: string): (a: App)
    ensures a.ui.inputMessage == text
    ensures a.ui.messages == app.ui.messages && a.service == app.service
    ensures a.ui.isLoading == app.ui.isLoading && a.ui.error == app.ui.error
  {
    app.(ui := app.ui.(inputMessage := text))
  }

  /** The state between user actions: no send outstanding, and the thread
      is a run of turns, each a non-empty trimmed user text followed by one
      non-empty assistant or error entry. */
  ghost predicate WellFormed(ui: Ui) {
    && !ui.isLoading
    && |ui.messages| % 2 == 0
    && forall i :: 0 <= i < |ui.messages| ==>
         && (ui.messages[i].role == UserRole <==> i % 2 == 0)
         && ui.messages[i].content != ""
         && (i % 2 == 0 ==> Text.Trim(ui.messages[i].content) == ui.messages[i].content)
  }

  /** What the user can do between sends. */
  datatype Action = Submit(identity: Identity) | NewChat | Type(text: string)

  /** One user action: its new state and the requests it issued. */
  function Apply(app: App, net: Net, at: nat, a: Action): (App, seq<Exchange>) {
    match a
    case Submit(id) => var e := HandleSendMessage(app, id, net, at); (e.app, e.trace)
    case NewChat => (HandleNewConversation(app), [])
    case Type(text) => (EditInput(app, text), [])
  }

  /** A send keeps the thread well formed: the appended user text is
      trimmed and non-empty, and the entry after it is not the user's. */
  lemma SendKeepsWellFormed(before: Ui, after: Ui)
    requires WellFormed(before) && CanSend(before) && SendAppended(before, after)
    ensures WellFormed(after)
  {
    Text.TrimIdempotent(before.inputMessage);
    var m := after.messages;
    var n := |before.messages|;
    // a well-formed thread has even length, so the send fills an even
    // position with the user's text and the odd one after it
    assert n % 2 == 0 && (n + 1) % 2 == 1 && (n + 2) % 2 == 0;
    forall i | 0 <= i < |m|
      ensures (m[i].role == UserRole <==> i % 2 == 0)
      ensures m[i].content != ""
      ensures i % 2 == 0 ==> Text.Trim(m[i].content) == m[i].content
    {
      if i < n {
        assert m[i] == m[..n][i];
      } else if i == n {
        assert i % 2 == 0;
      } else {
        assert i == n + 1 && i % 2 == 1;
      }
    }
  }

  /** Each action keeps the thread well formed, so every state reachable
      from the first render through whole actions is well formed (a send
      counts as one action, from the click to the settled reply). */
  lemma ApplyWellFormed(app: App, net: Net, at: nat, a: Action)
    requires WellFormed(app.ui)
    ensures WellFormed(Apply(app, net, at, a).0.ui)
  {
    if a.Submit? {
      var e := HandleSendMessage(app, a.identity, net, at);
      if CanSend(app.ui) {
        SendKeepsWellFormed(app.ui, e.app.ui);
      }
    }
  }

  /** Apart from `NewChat`, an action only appends to the thread: a
      failed send, whatever the network and the identity provider answer,
      never loses or reorders earlier entries. */
  lemma ApplyKeepsHistory(app: App, net: Net, at: nat, a: Action)
    requires !a.NewChat?
    ensures var m := Apply(app, net, at, a).0.ui.messages;
      |app.ui.messages| <= |m| && m[..|app.ui.messages|] == app.ui.messages
  {
  }
}

=== FILE: copilot_service.dfy ===
/** `CopilotService`: the client's single conversation id and the four
    operations on it. Every operation is a pure function from the current
    service state, the network and the index `at` of the next answer to a
    `Step`: the new state, the requests issued (their answers are
    `Answer(net, at)`, `Answer(net, at + 1)`, ...) and either a returned value or the
    message of the thrown `Error`. */
module CopilotService {
  import opened Wrappers
  import opened Remote

  /** The service object: `conversationId` is null/undefined (`None`) or a
      string. */
  datatype Service = Service(conversationId: Option<string>)

  /** The result of one operation on the service: the new state, the
      requests issued with the answers they received, and the returned
      value or the thrown error's message. */
  datatype Step<T> = Step(service: Service, trace: seq<Exchange>, result: Result<T>)

  const CreatePrefix := "Failed to create conversation: "
  const SendPrefix := "Failed to send message: "
  const GetPrefix := "Failed to get conversation: "
  const NoActiveConversation := "No active conversation"

  /** `!this.conversationId` is false: an id is held. An empty-string id
      counts as none, exactly as JavaScript's truthiness test has it. */
  predicate HasConversation(s: Service) {
    Truthy(s.conversationId)
  }

  /** The last exchange of a non-empty trace. */
  function Last(trace: seq<Exchange>): Exchange
    requires trace != []
  {
    trace[|trace| - 1]
  }

  /** The constructor: a fresh service holds no conversation. */
  function New(): (s: Service)
    ensures !HasConversation(s)
    ensures s.conversationId.None?
  {
    Service(None)
  }

  /** `resetConversation`: forget the id, unconditionally and without a
      request (the signature has no network). Resetting is idempotent and
      yields the state of a fresh service. */
  function ResetConversation(s: Service): (s': Service)
    ensures !HasConversation(s')
    ensures s' == New()
  {
    Service(None)
  }

  /** `createConversation`: one create request. On success the returned id
      (possibly missing from the body) is both stored and returned; on
      failure the state is untouched and the error message prefers the
      remote message over the transport's. */
  function CreateConversation(s: Service, net: Net, at: nat, token: string): (st: Step<Option<string>>)
    ensures st.trace == [Exchange(CreateCall(token), Answer(net, at))]
    ensures st.result.Success? <==> Answer(net, at).Ok?
    ensures st.result.Success? ==>
      st.service.conversationId == st.result.value == Answer(net, at).body.id
    ensures st.result.Failure? ==>
      st.service == s && st.result.error == CreatePrefix + ErrorText(Answer(net, at))
  {
    var o := Answer(net, at);
    var trace := [Exchange(CreateCall(token), o)];
    if o.Ok? then Step(Service(o.body.id), trace, Success(o.body.id))
    else Step(s, trace, Failure(CreatePrefix + ErrorText(o)))
  }

  /** The first request of `sendMessage`: a post to the held id, or a
      create when none is held. */
  function FirstCall(s: Service, token: string, text: string): Call {
    if HasConversation(s) then ChatCall(token, s.conversationId, text) else CreateCall(token)
  }

  /** How a `sendMessage` that issued `trace` ended, as its caller sees it:
      on success the last request was a post to the id now held and its
      answer's body is returned; on failure the last request failed and its
      error text is reported, behind the create prefix when it was a
      create. */
  ghost predicate SendEnded(st: Step<Body>, token: string, text: string)
    requires st.trace != []
  {
    var e := Last(st.trace);
    && (st.result.Success? ==>
          e.call == ChatCall(token, st.service.conversationId, text) && e.answer == Ok(st.result.value))
    && (st.result.Failure? ==>
          && e.answer.HttpErr?
          && st.result.error == SendPrefix + (if e.call.CreateCall? then CreatePrefix else "") + ErrorText(e.answer))
  }

  /** One pass through the `try` block of `sendMessage` and the error text
      its `catch` computes, before the retry decision: create lazily when
      no id is held (a create failure is rethrown without an HTTP status),
      then post `text` to the held id. */
  function Attempt(s: Service, net: Net, at: nat, token: string, text: string): (st: Step<Body>)
    ensures 1 <= |st.trace| <= 2
  {
    var pre := if HasConversation(s) then Step(s, [], Success(s.conversationId))
               else CreateConversation(s, net, at, token);
    if pre.result.Failure? then
      Step(pre.service, pre.trace, Failure(SendPrefix + pre.result.error))
    else
      var o := Answer(net, at + |pre.trace|);
      var chat := Exchange(ChatCall(token, pre.service.conversationId, text), o);
      var trace := pre.trace + [chat];
      if o.Ok? then Step(pre.service, trace, Success(o.body))
      else Step(pre.service, trace, Failure(SendPrefix + ErrorText(o)))
  }

  /** What one attempt does, request by request: with an id held, one post
      to it; otherwise a create and, if it succeeded, one post to the
      created id. */
  lemma AttemptShape(s: Service, net: Net, at: nat, token: string, text: string)
    ensures var a := Attempt(s, net, at, token, text);
      && (HasConversation(s) ==>
            && a.trace == [Exchange(ChatCall(token, s.conversationId, text), Answer(net, at))]
            && a.service == s)
      && (!HasConversation(s) && Answer(net, at).HttpErr? ==>
            && a.trace == [Exchange(CreateCall(token), Answer(net, at))]
            && a.service == s
            && a.result == Failure(SendPrefix + CreatePrefix + ErrorText(Answer(net, at))))
      && (!HasConversation(s) && Answer(net, at).Ok? ==>
            var id := Answer(net, at).body.id;
            && a.trace == [Exchange(CreateCall(token), Answer(net, at)),
                           Exchange(ChatCall(token, id, text), Answer(net, at + 1))]
            && a.service == Service(id))
  {
  }

  /** One attempt reads the network's answers in order, starts with the
      request `FirstCall` names, and ends as `SendEnded` describes. */
  lemma AttemptSpec(s: Service, net: Net, at: nat, token: string, text: string)
    ensures var a := Attempt(s, net, at, token, text);
      && AnsweredBy(a.trace, net, at)
      && a.trace[0].call == FirstCall(s, token, text)
      && SendEnded(a, token, text)
  {
    AttemptShape(s, net, at, token, text);
  }

  /** One attempt creates exactly when no id is held, and posts at most
      once; every request is one or the other. */
  lemma AttemptCounts(s: Service, net: Net, at: nat, token: string, text: string)
    ensures var a := Attempt(s, net, at, token, text);
      && Creates(a.trace) == (if HasConversation(s) then 0 else 1)
      && Chats(a.trace) <= 1
      && Creates(a.trace) + Chats(a.trace) == |a.trace|
  {
    AttemptShape(s, net, at, token, text);
    var a := Attempt(s, net, at, token, text);
    CountsSingle(a.trace[0]);
    if |a.trace| == 2 {
      assert a.trace == [a.trace[0]] + [a.trace[1]];
      CountsSingle(a.trace[1]);
      CountsAppend([a.trace[0]], [a.trace[1]]);
    } else {
      assert a.trace == [a.trace[0]];
    }
  }

  /** The `catch` of `sendMessage` retries: the attempt failed on a post
      answered with status 404 and was not itself the retry. A failed
      create never qualifies, since the error it throws has no status. */
  predicate RetriesAfter(a: Step<Body>, isRetry: bool)
    requires a.trace != []
  {
    && !isRetry
    && a.result.Failure?
    && Last(a.trace).call.ChatCall?
    && Last(a.trace).answer.HttpErr?
    && Last(a.trace).answer.status == Some(NotFound)
  }

  /** `sendMessage(token, text, isRetry)`: one attempt; if it ends in a
      404 on the post and this is not the retry, the catch block retries. */
  function SendMessage(s: Service, net: Net, at: nat, token: string, text: string, isRetry: bool): (st: Step<Body>)
    decreases if isRetry then 0 else 2
    // one or two requests per attempt, and at most one retry
    ensures 1 <= |st.trace| <= (if isRetry then 2 else 4)
  {
    var a := Attempt(s, net, at, token, text);
    if RetriesAfter(a, isRetry) then Retry(a, net, at, token, text) else a
  }

  /** The recovery branch of the `catch` of `sendMessage`, after attempt
      `a` met a 404: clear the id and call `sendMessage` again with
      `isRetry` set, on the answers that follow; its outcome is the
      call's. */
  function Retry(a: Step<Body>, net: Net, at: nat, token: string, text: string): (st: Step<Body>)
    requires 1 <= |a.trace| <= 2
    decreases 1
    ensures 2 <= |st.trace| <= 4
    // the attempt's requests come first, then those of the retry
    ensures |a.trace| < |st.trace| && st.trace[..|a.trace|] == a.trace
  {
    var retry := SendMessage(ResetConversation(a.service), net, at + |a.trace|, token, text, true);
    assert (a.trace + retry.trace)[..|a.trace|] == a.trace;
    Step(retry.service, a.trace + retry.trace, retry.result)
  }

  /** The answers `sendMessage` acted on are the network's, in request
      order: a run of it reads exactly the answers `Answer(net, at)`,
      `Answer(net, at + 1)`, ... */
  lemma {:induction false} SendMessageAnswered(s: Service, net: Net, at: nat, token: string, text: string, isRetry: bool)
    ensures AnsweredBy(SendMessage(s, net, at, token, text, isRetry).trace, net, at)
    decreases if isRetry then 0 else 1
  {
    var a := Attempt(s, net, at, token, text);
    AttemptSpec(s, net, at, token, text);
    if RetriesAfter(a, isRetry) {
      var s' := ResetConversation(a.service);
      SendMessageAnswered(s', net, at + |a.trace|, token, text, true);
      var retry := SendMessage(s', net, at + |a.trace|, token, text, true);
      AnsweredAppend(a.trace, retry.trace, net, at);
      assert SendMessage(s, net, at, token, text, isRetry) == Retry(a, net, at, token, text);
    }
  }

  /** One external `sendMessage` posts at most twice and creates at most
      twice; the retry posts and creates at most once; no create happens on
      the first attempt when an id is held. Every request is a create or a
      post. */
  lemma {:induction false} SendMessageBounds(s: Service, net: Net, at: nat, token: string, text: string, isRetry: bool)
    ensures var st := SendMessage(s, net, at, token, text, isRetry);
      && Chats(st.trace) <= (if isRetry then 1 else 2)
      && Creates(st.trace) <= (if HasConversation(s) then 0 else 1) + (if isRetry then 0 else 1)
      && Creates(st.trace) + Chats(st.trace) == |st.trace|
    decreases if isRetry then 0 else 1
  {
    var a := Attempt(s, net, at, token, text);
    AttemptCounts(s, net, at, token, text);
    if RetriesAfter(a, isRetry) {
      var s' := ResetConversation(a.service);
      SendMessageBounds(s', net, at + |a.trace|, token, text, true);
      var retry := SendMessage(s', net, at + |a.trace|, token, text, true);
      assert SendMessage(s, net, at, token, text, isRetry) == Retry(a, net, at, token, text);
      CountsAppend(a.trace, retry.trace);
    }
  }

  /** The first request of `sendMessage` reuses the held id, or creates a
      conversation when none is held. */
  lemma SendMessageFirstCall(s: Service, net: Net, at: nat, token: string, text: string, isRetry: bool)
    ensures SendMessage(s, net, at, token, text, isRetry).trace[0].call == FirstCall(s, token, text)
  {
    var a := Attempt(s, net, at, token, text);
    AttemptSpec(s, net, at, token, text);
    if RetriesAfter(a, isRetry) {
      assert SendMessage(s, net, at, token, text, isRetry) == Retry(a, net, at, token, text);
      assert Retry(a, net, at, token, text).trace[0] == a.trace[0];
    }
  }

  /** How `sendMessage` ends: success carries the body of the last post,
      sent to the id now held; failure carries the error text of the last
      request, which failed. With the retry, the call's outcome is the
      retry's. */
  lemma {:induction false} SendMessageEnded(s: Service, net: Net, at: nat, token: string, text: string, isRetry: bool)
    ensures SendEnded(SendMessage(s, net, at, token, text, isRetry), token, text)
    decreases if isRetry then 0 else 1
  {
    var a := Attempt(s, net, at, token, text);
    AttemptSpec(s, net, at, token, text);
    if RetriesAfter(a, isRetry) {
      var s' := ResetConversation(a.service);
      SendMessageEnded(s', net, at + |a.trace|, token, text, true);
      var retry := SendMessage(s', net, at + |a.trace|, token, text, true);
      var st := Retry(a, net, at, token, text);
      assert SendMessage(s, net, at, token, text, isRetry) == st;
      assert Last(st.trace) == Last(retry.trace);
    }
  }

  /** `getConversation`: guarded by the held id (no request without one);
      never changes the state. */
  function GetConversation(s: Service, net: Net, at: nat, token: string): (st: Step<Body>)
    ensures st.service == s
    ensures !HasConversation(s) ==> st.trace == [] && st.result == Failure(NoActiveConversation)
    ensures HasConversation(s) ==>
      && st.trace == [Exchange(GetCall(token, s.conversationId), Answer(net, at))]
      && (st.result.Success? <==> Answer(net, at).Ok?)
      && (st.result.Success? ==> st.result.value == Answer(net, at).body)
      && (st.result.Failure? ==> st.result.error == GetPrefix + ErrorText(Answer(net, at)))
  {
    if !HasConversation(s) then Step(s, [], Failure(NoActiveConversation))
    else
      var o := Answer(net, at);
      Step(s, [Exchange(GetCall(token, s.conversationId), o)],
           if o.Ok? then Success(o.body) else Failure(GetPrefix + ErrorText(o)))
  }

  /** With an id held and the post answered, `sendMessage` issues exactly
      that one post, to the held id, keeps the id and returns the body. */
  lemma SendReusesConversation(s: Service, net: Net, at: nat, token: string, text: string, isRetry: bool)
    requires HasConversation(s) && Answer(net, at).Ok?
    ensures SendMessage(s, net, at, token, text, isRetry)
      == Step(s, [Exchange(ChatCall(token, s.conversationId, text), Answer(net, at))], Success(Answer(net, at).body))
  {
  }

  /** With no id held, `sendMessage` creates the conversation first and
      posts to the created id: exactly one create and one post. */
  lemma SendCreatesLazily(s: Service, net: Net, at: nat, token: string, text: string, isRetry: bool)
    requires !HasConversation(s) && Answer(net, at).Ok? && Answer(net, at + 1).Ok?
    ensures var id := Answer(net, at).body.id;
      SendMessage(s, net, at, token, text, isRetry)
        == Step(Service(id),
                [Exchange(CreateCall(token), Answer(net, at)), Exchange(ChatCall(token, id, text), Answer(net, at + 1))],
                Success(Answer(net, at + 1).body))
  {
  }

  /** A failed create inside `sendMessage` is never retried, whatever its
      status (even 404): one request, the state untouched, and the create
      error wrapped in the send error. */
  lemma CreateFailureNotRetried(s: Service, net: Net, at: nat, token: string, text: string, isRetry: bool)
    requires !HasConversation(s) && Answer(net, at).HttpErr?
    ensures SendMessage(s, net, at, token, text, isRetry)
      == Step(s, [Exchange(CreateCall(token), Answer(net, at))],
              Failure(SendPrefix + CreatePrefix + ErrorText(Answer(net, at))))
  {
    AttemptShape(s, net, at, token, text);
  }

  /** With an id held, a failed post is thrown at once, without touching
      the id, when its status is not 404 or the call was made with
      `isRetry` set: one request and the post's error text behind the send
      prefix. */
  lemma PostFailureNotRetried(s: Service, net: Net, at: nat, token: string, text: string, isRetry: bool)
    requires HasConversation(s) && Answer(net, at).HttpErr?
    requires isRetry || Answer(net, at).status != Some(NotFound)
    ensures SendMessage(s, net, at, token, text, isRetry)
      == Step(s, [Exchange(ChatCall(token, s.conversationId, text), Answer(net, at))],
              Failure(SendPrefix + ErrorText(Answer(net, at))))
  {
    AttemptShape(s, net, at, token, text);
  }

  /** With no id held, a create that succeeds followed by a post that
      fails is thrown at once when the post's status is not 404 or the call
      was made with `isRetry` set — in particular on the retry's own post,
      which always follows a cleared id. The created id stays held. */
  lemma CreatedPostFailureNotRetried(s: Service, net: Net, at: nat, token: string, text: string, isRetry: bool)
    requires !HasConversation(s) && Answer(net, at).Ok? && Answer(net, at + 1).HttpErr?
    requires isRetry || Answer(net, at + 1).status != Some(NotFound)
    ensures var id := Answer(net, at).body.id;
      SendMessage(s, net, at, token, text, isRetry)
        == Step(Service(id),
                [Exchange(CreateCall(token), Answer(net, at)), Exchange(ChatCall(token, id, text), Answer(net, at + 1))],
                Failure(SendPrefix + ErrorText(Answer(net, at + 1))))
  {
    AttemptShape(s, net, at, token, text);
  }

  /** A 404 on the post of the first attempt clears the id and re-runs
      the operation exactly once, as the retry, on the answers that follow.
      The result is the retry's, and the retry's requests follow the
      failed attempt's. */
  lemma NotFoundRetriesOnce(s: Service, net: Net, at: nat, token: string, text: string)
    requires var a := Attempt(s, net, at, token, text);
      a.result.Failure? && Last(a.trace).call.ChatCall? && Last(a.trace).answer.HttpErr?
      && Last(a.trace).answer.status == Some(NotFound)
    ensures var a := Attempt(s, net, at, token, text);
      var retry := SendMessage(New(), net, at + |a.trace|, token, text, true);
      SendMessage(s, net, at, token, text, false) == Step(retry.service, a.trace + retry.trace, retry.result)
  {
  }

  /** The retry never retries: a 404 on its post is thrown as a send
      failure, and the id still holds the conversation the retry created. */
  lemma RetryNotFoundThrows(net: Net, at: nat, token: string, text: string)
    requires Answer(net, at).Ok?
    requires Answer(net, at + 1).HttpErr? && Answer(net, at + 1).status == Some(NotFound)
    ensures var st := SendMessage(New(), net, at, token, text, true);
      && st.service == Service(Answer(net, at).body.id)
      && |st.trace| == 2
      && st.result == Failure(SendPrefix + ErrorText(Answer(net, at + 1)))
  {
  }

  /** The whole recovery path from a held id: post (404), create, post
      (404) is three requests, ends in the send error of the second 404
      and leaves the id created during the retry. */
  lemma NotFoundTwiceFails(s: Service, net: Net, at: nat, token: string, text: string)
    requires HasConversation(s)
    requires Answer(net, at).HttpErr? && Answer(net, at).status == Some(NotFound)
    requires Answer(net, at + 1).Ok?
    requires Answer(net, at + 2).HttpErr? && Answer(net, at + 2).status == Some(NotFound)
    ensures var st := SendMessage(s, net, at, token, text, false);
      && st.service == Service(Answer(net, at + 1).body.id)
      && |st.trace| == 3 && Creates(st.trace) == 1 && Chats(st.trace) == 2
      && st.result == Failure(SendPrefix + ErrorText(Answer(net, at + 2)))
  {
    var a := Attempt(s, net, at, token, text);
    assert a.trace == [Exchange(ChatCall(token, s.conversationId, text), Answer(net, at))];
    NotFoundRetriesOnce(s, net, at, token, text);
    RetryNotFoundThrows(net, at + 1, token, text);
    var retry := SendMessage(New(), net, at + 1, token, text, true);
    assert retry.trace[0].call == CreateCall(token);
    assert retry.trace[1].call.ChatCall?;
    var st := SendMessage(s, net, at, token, text, false);
    assert st.trace == a.trace + retry.trace;
    assert retry.trace == [retry.trace[0]] + [retry.trace[1]];
    CountsSingle(a.trace[0]);
    CountsSingle(retry.trace[0]);
    CountsSingle(retry.trace[1]);
    CountsAppend([retry.trace[0]], [retry.trace[1]]);
    CountsAppend(a.trace, retry.trace);
  }

  /** One retry cycle that recovers: from a held id, a post answered 404,
      a create answered Ok and a post answered Ok make exactly three
      requests — post to the old id, create, post to the created id — store
      the created id and return the second post's body. */
  lemma NotFoundRecovers(s: Service, net: Net, at: nat, token: string, text: string)
    requires HasConversation(s)
    requires Answer(net, at).HttpErr? && Answer(net, at).status == Some(NotFound)
    requires Answer(net, at + 1).Ok? && Answer(net, at + 2).Ok?
    ensures var id := Answer(net, at + 1).body.id;
      SendMessage(s, net, at, token, text, false)
        == Step(Service(id),
                [Exchange(ChatCall(token, s.conversationId, text), Answer(net, at)),
                 Exchange(CreateCall(token), Answer(net, at + 1)),
                 Exchange(ChatCall(token, id, text), Answer(net, at + 2))],
                Success(Answer(net, at + 2).body))
  {
    var a := Attempt(s, net, at, token, text);
    AttemptShape(s, net, at, token, text);
    NotFoundRetriesOnce(s, net, at, token, text);
    SendCreatesLazily(New(), net, at + 1, token, text, true);
  }

  /** The id `sendMessage` leaves behind: the one held before, none (a
      404 cleared it and the retry's create failed), or the id returned by
      a successful create among its requests. */
  lemma {:induction false} SendMessageId(s: Service, net: Net, at: nat, token: string, text: string, isRetry: bool)
    ensures var st := SendMessage(s, net, at, token, text, isRetry);
      || st.service == s
      || st.service == New()
      || exists k :: 0 <= k < |st.trace| && st.trace[k].call.CreateCall? && st.trace[k].answer.Ok?
                      && st.service == Service(st.trace[k].answer.body.id)
    decreases if isRetry then 0 else 1
  {
    var a := Attempt(s, net, at, token, text);
    AttemptShape(s, net, at, token, text);
    if RetriesAfter(a, isRetry) {
      var s' := ResetConversation(a.service);
      SendMessageId(s', net, at + |a.trace|, token, text, true);
      var retry := SendMessage(s', net, at + |a.trace|, token, text, true);
      var st := Retry(a, net, at, token, text);
      assert SendMessage(s, net, at, token, text, isRetry) == st;
      if retry.service != s' {
        var k :| 0 <= k < |retry.trace| && retry.trace[k].call.CreateCall? && retry.trace[k].answer.Ok?
                 && retry.service == Service(retry.trace[k].answer.body.id);
        assert st.trace[|a.trace| + k] == retry.trace[k];
      }
    } else if !HasConversation(s) && Answer(net, at).Ok? {
      assert a.trace[0].call.CreateCall?;
    }
  }

  /** A successful create followed by `getConversation`: the get goes to
      the created id when that id is usable; an empty or missing id counts
      as no conversation, so the get is refused without a request. */
  lemma CreateThenGet(s: Service, net: Net, at: nat, token: string)
    requires Answer(net, at).Ok?
    ensures var c := CreateConversation(s, net, at, token);
      var g := GetConversation(c.service, net, at + 1, token);
      && (Truthy(c.result.value) ==>
            g.trace == [Exchange(GetCall(token, c.result.value), Answer(net, at + 1))])
      && (!Truthy(c.result.value) ==>
            g.trace == [] && g.result == Failure(NoActiveConversation))
  {
  }

  /** After a reset, `getConversation` is refused without a request and
      the service stays fresh, whatever was held before. */
  lemma ResetThenGet(s: Service, net: Net, at: nat, token: string)
    ensures GetConversation(ResetConversation(s), net, at, token) == Step(New(), [], Failure(NoActiveConversation))
  {
  }

  /** Every request from answer `at` on succeeds, and every create returns
      a usable (non-empty) id. */
  ghost predicate Healthy(net: Net, at: nat) {
    forall k: nat {:trigger Answer(net, k)} :: at <= k ==> Answer(net, k).Ok? && Truthy(Answer(net, k).body.id)
  }

  /** Sends `texts` one after the other on the same service, each starting
      from the state and the answer the previous one left; returns the
      final state and all requests issued. */
  function SendEach(s: Service, net: Net, at: nat, token: string, texts: seq<string>): (Service, seq<Exchange>)
    decreases |texts|
  {
    if texts == [] then (s, [])
    else
      var st := SendMessage(s, net, at, token, texts[0], false);
      var rest := SendEach(st.service, net, at + |st.trace|, token, texts[1..]);
      (rest.0, st.trace + rest.1)
  }

  /** On a healthy network the conversation is created at most once and
      reused by every later send: a run of sends makes one post per text
      and a single create, and only if no id was held at the start. */
  lemma {:induction false} HealthySendsCreateOnce(s: Service, net: Net, at: nat, token: string, texts: seq<string>)
    requires Healthy(net, at)
    ensures var (s', trace) := SendEach(s, net, at, token, texts);
      && Chats(trace) == |texts|
      && Creates(trace) == (if HasConversation(s) || texts == [] then 0 else 1)
      && (texts != [] ==> HasConversation(s'))
    decreases |texts|
  {
    if texts != [] {
      var st := SendMessage(s, net, at, token, texts[0], false);
      assert Answer(net, at).Ok? && Truthy(Answer(net, at).body.id);
      assert Answer(net, at + 1).Ok?;
      if HasConversation(s) {
        SendReusesConversation(s, net, at, token, texts[0], false);
        CountsSingle(st.trace[0]);
      } else {
        SendCreatesLazily(s, net, at, token, texts[0], false);
        assert st.trace == [st.trace[0]] + [st.trace[1]];
        CountsSingle(st.trace[0]);
        CountsSingle(st.trace[1]);
        CountsAppend([st.trace[0]], [st.trace[1]]);
      }
      assert HasConversation(st.service);
      HealthySendsCreateOnce(st.service, net, at + |st.trace|, token, texts[1..]);
      var rest := SendEach(st.service, net, at + |st.trace|, token, texts[1..]);
      CountsAppend(st.trace, rest.1);
    }
  }
}

=== FILE: remote.dfy ===
/** The remote conversation API seen as a stream of abstract outcomes.
    Each HTTP request the client issues is recorded as a `Call`; the answer
    to it is read off a `Net`, so a run is fully determined by the answers
    the network would give. */
module Remote {
  import opened Wrappers

  /** One entry of a chat response's `messages` array, reduced to the two
      fields the client reads: the `@odata.type` tag and the `text`. */
  datatype Message = Message(odataType: Option<string>, text: Option<string>)

  /** A successful response's `data`, reduced to the fields the client
      reads: `id` of a created conversation and `messages` of a chat turn.
      A field absent from the JSON is `None`. */
  datatype Body = Body(id: Option<string>, messages: Option<seq<Message>>)

  /** What one request yields: a 2xx response, or the error axios throws,
      with the HTTP status when a response arrived, the remote
      `error.message` from the body when present, and the transport's own
      `message`. */
  datatype Outcome =
    | Ok(body: Body)
    | HttpErr(status: Option<int>, remoteMsg: Option<string>, transportMsg: string)

  /** The requests the client issues. `target` is the conversation id as
      interpolated into the URL at the time of the request. */
  datatype Call =
    | CreateCall(token: string)
    | ChatCall(token: string, target: Option<string>, text: string)
    | GetCall(token: string, target: Option<string>)

  /** The network's answers in request order: the listed ones, then the
      same answer for every later request. A run issues finitely many
      requests, so every run is reproduced by some `Net`. */
  datatype Net = Net(answers: seq<Outcome>, otherwise: Outcome)

  /** The answer to request number `k`. */
  function Answer(net: Net, k: nat): Outcome {
    if k < |net.answers| then net.answers[k] else net.otherwise
  }

  /** HTTP 404, the one status the client recovers from. */
  const NotFound: int := 404

  /** JavaScript truthiness of a string that may be null or undefined. */
  predicate Truthy(o: Option<string>) {
    o.Some? && o.value != ""
  }

  /** `error.response?.data?.error?.message || error.message`: the remote
      message when it is a non-empty string, otherwise the transport's. */
  function ErrorText(o: Outcome): (m: string)
    requires o.HttpErr?
    ensures Truthy(o.remoteMsg) ==> m == o.remoteMsg.value
    ensures !Truthy(o.remoteMsg) ==> m == o.transportMsg
  {
    if Truthy(o.remoteMsg) then o.remoteMsg.value else o.transportMsg
  }

  /** One request and the answer it received. */
  datatype Exchange = Exchange(call: Call, answer: Outcome)

  /** The answers recorded in `trace` are those `net` gives, starting with
      answer number `at`. */
  ghost predicate AnsweredBy(trace: seq<Exchange>, net: Net, at: nat) {
    forall k {:trigger trace[k]} :: 0 <= k < |trace| ==> trace[k].answer == Answer(net, at + k)
  }

  /** Two traces answered back to back form one answered trace. */
  lemma AnsweredAppend(a: seq<Exchange>, b: seq<Exchange>, net: Net, at: nat)
    requires AnsweredBy(a, net, at)
    requires AnsweredBy(b, net, at + |a|)
    ensures AnsweredBy(a + b, net, at)
  {
    forall k | 0 <= k < |a + b| ensures (a + b)[k].answer == Answer(net, at + k) {
      if k >= |a| {
        assert (a + b)[k] == b[k - |a|];
        assert at + |a| + (k - |a|) == at + k;
      }
    }
  }

  /** Number of create requests in `trace`. */
  function Creates(trace: seq<Exchange>): nat {
    if trace == [] then 0
    else (if trace[0].call.CreateCall? then 1 else 0) + Creates(trace[1..])
  }

  /** Number of chat requests in `trace`. */
  function Chats(trace: seq<Exchange>): nat {
    if trace == [] then 0
    else (if trace[0].call.ChatCall? then 1 else 0) + Chats(trace[1..])
  }

  /** Counting distributes over concatenation of traces. */
  lemma {:induction false} CountsAppend(a: seq<Exchange>, b: seq<Exchange>)
    ensures Creates(a + b) == Creates(a) + Creates(b)
    ensures Chats(a + b) == Chats(a) + Chats(b)
    decreases |a|
  {
    if a == [] {
      assert a + b == b;
    } else {
      assert (a + b)[1..] == a[1..] + b;
      CountsAppend(a[1..], b);
    }
  }

  /** A single request counts as what it is. */
  lemma CountsSingle(e: Exchange)
    ensures Creates([e]) == (if e.call.CreateCall? then 1 else 0)
    ensures Chats([e]) == (if e.call.ChatCall? then 1 else 0)
  {
    assert [e][1..] == [];
  }
}

=== FILE: reply.dfy ===
/** `extractCopilotReply`: the assistant's text in a chat response — the
    `text` of the last message whose `@odata.type` mentions the response
    message type, or nothing when there is no such message or its text is
    empty. */
module Reply {
  import opened Wrappers
  import opened Remote
  import Text

  /** The type-tag fragment that marks an assistant response message. */
  const ResponseTag := "copilotConversationResponseMessage"

  /** `msg['@odata.type']?.includes(ResponseTag)`: the tag exists and
      contains the fragment. */
  predicate IsResponseMessage(m: Message) {
    m.odataType.Some? && Text.Contains(m.odataType.value, ResponseTag)
  }

  /** `messages.filter(IsResponseMessage)`: the response messages, in their
      original order. */
  function Candidates(msgs: seq<Message>): (c: seq<Message>)
    ensures |c| <= |msgs|
    ensures forall m :: m in c ==> m in msgs && IsResponseMessage(m)
  {
    if msgs == [] then []
    else (if IsResponseMessage(msgs[0]) then [msgs[0]] else []) + Candidates(msgs[1..])
  }

  /** `conversationData.messages || []`: a missing array reads as empty. */
  function MessagesOf(data: Body): seq<Message> {
    data.messages.GetOr([])
  }

  /** `extractCopilotReply(conversationData)`: take the candidates, pop
      the last one, and return its text when that is a non-empty string
      (`copilotMsg?.text || null`). */
  function ExtractCopilotReply(data: Body): (reply: Option<string>)
    ensures reply.Some? ==> reply.value != ""
    ensures reply.Some? ==> exists m :: m in MessagesOf(data) && IsResponseMessage(m) && m.text == reply
  {
    var c := Candidates(MessagesOf(data));
    if c == [] then None
    else
      var last := c[|c| - 1];
      if Truthy(last.text) then last.text else None
  }

  /** Index `i` holds the last response message of `msgs`. */
  ghost predicate IsLastResponse(msgs: seq<Message>, i: int) {
    && 0 <= i < |msgs|
    && IsResponseMessage(msgs[i])
    && forall j :: i < j < |msgs| ==> !IsResponseMessage(msgs[j])
  }

  /** Filtering finds nothing exactly when no message is a response. */
  lemma {:induction false} CandidatesEmpty(msgs: seq<Message>)
    ensures Candidates(msgs) == [] <==> forall j :: 0 <= j < |msgs| ==> !IsResponseMessage(msgs[j])
    decreases |msgs|
  {
    if msgs != [] {
      CandidatesEmpty(msgs[1..]);
      if forall j :: 0 <= j < |msgs[1..]| ==> !IsResponseMessage(msgs[1..][j]) {
        forall j | 1 <= j < |msgs| ensures !IsResponseMessage(msgs[j]) {
          assert msgs[j] == msgs[1..][j - 1];
        }
      } else {
        var j :| 0 <= j < |msgs[1..]| && IsResponseMessage(msgs[1..][j]);
        assert IsResponseMessage(msgs[j + 1]);
      }
    }
  }

  /** The last candidate is the message at the last response index. */
  lemma {:induction false} LastCandidate(msgs: seq<Message>, i: int)
    requires IsLastResponse(msgs, i)
    ensures Candidates(msgs) != []
    ensures Candidates(msgs)[|Candidates(msgs)| - 1] == msgs[i]
    decreases |msgs|
  {
    var tail := msgs[1..];
    if i == 0 {
      CandidatesEmpty(tail);
      forall j | 0 <= j < |tail| ensures !IsResponseMessage(tail[j]) {
        assert tail[j] == msgs[j + 1];
      }
      assert Candidates(msgs) == [msgs[0]] + Candidates(tail);
    } else {
      assert IsLastResponse(tail, i - 1) by {
        forall j | i - 1 < j < |tail| ensures !IsResponseMessage(tail[j]) {
          assert tail[j] == msgs[j + 1];
        }
      }
      LastCandidate(tail, i - 1);
    }
  }

  /** When some message is a response, a last one exists. */
  lemma {:induction false} LastResponseExists(msgs: seq<Message>, j: int) returns (i: int)
    requires 0 <= j < |msgs| && IsResponseMessage(msgs[j])
    ensures IsLastResponse(msgs, i)
    decreases |msgs| - j
  {
    if forall k :: j < k < |msgs| ==> !IsResponseMessage(msgs[k]) {
      i := j;
    } else {
      var k :| j < k < |msgs| && IsResponseMessage(msgs[k]);
      i := LastResponseExists(msgs, k);
    }
  }

  /** The reply is determined by the last response message: its text when
      non-empty, otherwise nothing. */
  lemma ReplyFromLastResponse(data: Body, i: int)
    requires IsLastResponse(MessagesOf(data), i)
    ensures ExtractCopilotReply(data) == if Truthy(MessagesOf(data)[i].text) then MessagesOf(data)[i].text else None
  {
    LastCandidate(MessagesOf(data), i);
  }

  /** Without a response message — in particular with no `messages` field
      or an empty array — there is no reply. */
  lemma NoResponseNoReply(data: Body)
    requires forall j :: 0 <= j < |MessagesOf(data)| ==> !IsResponseMessage(MessagesOf(data)[j])
    ensures ExtractCopilotReply(data) == None
  {
    CandidatesEmpty(MessagesOf(data));
  }

  /** Both directions of the characterisation: a reply `t` is extracted
      exactly when the last response message carries the non-empty text
      `t`. */
  lemma ReplySpec(data: Body, t: string)
    ensures ExtractCopilotReply(data) == Some(t) <==>
      exists i :: IsLastResponse(MessagesOf(data), i) && MessagesOf(data)[i].text == Some(t) && t != ""
  {
    var msgs := MessagesOf(data);
    if ExtractCopilotReply(data) == Some(t) {
      var m :| m in msgs && IsResponseMessage(m) && m.text == Some(t);
      var j :| 0 <= j < |msgs| && msgs[j] == m;
      var i := LastResponseExists(msgs, j);
      ReplyFromLastResponse(data, i);
    }
    if exists i :: IsLastResponse(msgs, i) && msgs[i].text == Some(t) && t != "" {
      var i :| IsLastResponse(msgs, i) && msgs[i].text == Some(t) && t != "";
      ReplyFromLastResponse(data, i);
    }
  }
}

=== FILE: text.dfy ===
/** The two string operations of the JavaScript runtime the client relies on:
    `String.prototype.includes` and `String.prototype.trim`. */
module Text {

  /** `sub` occurs in `s` starting at index `i`. */
  ghost predicate OccursAt(s: string, sub: string, i: int) {
    0 <= i && i + |sub| <= |s| && s[i..i + |sub|] == sub
  }

  /** `s.includes(sub)`: a left-to-right scan for an occurrence of `sub`.
      The empty string occurs in every string. */
  function Contains(s: string, sub: string): bool
    decreases |s|
  {
    if |sub| > |s| then false
    else if s[..|sub|] == sub then true
    else Contains(s[1..], sub)
  }

  /** The scan finds an occurrence exactly when one exists. */
  lemma {:induction false} ContainsSpec(s: string, sub: string)
    ensures Contains(s, sub) <==> exists i :: OccursAt(s, sub, i)
    decreases |s|
  {
    if |sub| > |s| {
      forall i | OccursAt(s, sub, i) ensures false {
      }
    } else if s[..|sub|] == sub {
      assert OccursAt(s, sub, 0);
    } else {
      ContainsSpec(s[1..], sub);
      if Contains(s[1..], sub) {
        var i :| OccursAt(s[1..], sub, i);
        assert s[1..][i..i + |sub|] == s[i + 1..i + 1 + |sub|];
        assert OccursAt(s, sub, i + 1);
      } else {
        forall i | OccursAt(s, sub, i) ensures false {
          if i != 0 {
            assert s[1..][i - 1..i - 1 + |sub|] == s[i..i + |sub|];
            assert OccursAt(s[1..], sub, i - 1);
          }
        }
      }
    }
  }

  /** The characters `String.prototype.trim` removes: the ECMAScript
      WhiteSpace set (TAB, VT, FF, ZWNBSP and every Unicode space separator)
      and the LineTerminator set (LF, CR, LS, PS). */
  predicate IsSpace(c: char) {
    || c == '\t' || c == '\n' || c == '\U{000B}' || c == '\U{000C}' || c == '\r'
    || c == ' ' || c == '\U{00A0}' || c == '\U{1680}'
    || ('\U{2000}' <= c <= '\U{200A}')
    || c == '\U{2028}' || c == '\U{2029}' || c == '\U{202F}' || c == '\U{205F}'
    || c == '\U{3000}' || c == '\U{FEFF}'
  }

  /** Every character of `s` is removed by trimming. */
  predicate Blank(s: string) {
    forall i :: 0 <= i < |s| ==> IsSpace(s[i])
  }

  /** `s` with its leading whitespace removed. */
  function TrimStart(s: string): string
    decreases |s|
  {
    if s != [] && IsSpace(s[0]) then TrimStart(s[1..]) else s
  }

  /** `s` with its trailing whitespace removed. */
  function TrimEnd(s: string): string
    decreases |s|
  {
    if s != [] && IsSpace(s[|s| - 1]) then TrimEnd(s[..|s| - 1]) else s
  }

  /** `s.trim()`: leading, then trailing whitespace removed. */
  function Trim(s: string): string {
    TrimEnd(TrimStart(s))
  }

  /** Removing leading whitespace leaves the longest suffix of `s` that
      does not start with whitespace. */
  lemma {:induction false} TrimStartSpec(s: string)
    ensures var r := TrimStart(s);
      && |r| <= |s| && r == s[|s| - |r|..]
      && Blank(s[..|s| - |r|])
      && (r == [] || !IsSpace(r[0]))
    decreases |s|
  {
    if s != [] && IsSpace(s[0]) {
      TrimStartSpec(s[1..]);
      var r := TrimStart(s[1..]);
      assert s[1..][..|s[1..]| - |r|] == s[1..|s| - |r|];
    }
  }

  /** Removing trailing whitespace leaves the longest prefix of `s` that
      does not end with whitespace. */
  lemma {:induction false} TrimEndSpec(s: string)
    ensures var r := TrimEnd(s);
      && |r| <= |s| && r == s[..|r|]
      && Blank(s[|r|..])
      && (r == [] || !IsSpace(r[|r| - 1]))
    decreases |s|
  {
    if s != [] && IsSpace(s[|s| - 1]) {
      TrimEndSpec(s[..|s| - 1]);
      var r := TrimEnd(s[..|s| - 1]);
      assert s[..|s| - 1][|r|..] == s[|r|..|s| - 1];
    }
  }

  /** `r` is `s` with whitespace removed from both ends: a slice of `s`
      whose surroundings are blank and whose ends are not whitespace. */
  ghost predicate IsTrimOf(r: string, s: string) {
    && (r == [] || (!IsSpace(r[0]) && !IsSpace(r[|r| - 1])))
    && exists a, b :: 0 <= a <= b <= |s| && r == s[a..b] && Blank(s[..a]) && Blank(s[b..])
  }

  /** Trimming removes exactly the whitespace at both ends, and yields the
      empty string exactly when `s` is blank. */
  lemma TrimSpec(s: string)
    ensures IsTrimOf(Trim(s), s)
    ensures Trim(s) == [] <==> Blank(s)
  {
    var t := TrimStart(s);
    TrimStartSpec(s);
    TrimEndSpec(t);
    var a := |s| - |t|;
    var r := TrimEnd(t);
    assert r == s[a..a + |r|];
    assert s[a + |r|..] == t[|r|..];
    if r == [] {
      assert s == s[..a] + t[|r|..];
      assert Blank(s);
    } else {
      assert !IsSpace(s[a]);
    }
  }

  /** Trimming twice is trimming once. */
  lemma TrimIdempotent(s: string)
    ensures Trim(Trim(s)) == Trim(s)
  {
    var r := Trim(s);
    TrimSpec(s);
    if r != [] {
      assert TrimStart(r) == r;
      assert TrimEnd(r) == r;
    }
  }
}

=== FILE: wrappers.dfy ===
/** Option and Result values standing in for JavaScript's null/undefined and
    thrown errors. */
module Wrappers {

  /** A value that may be absent (`null` or `undefined` in the source). */
  datatype Option<+T> = None | Some(value: T) {

    /** The held value, or `default` when there is none (the `x || []` idiom
        for non-string values). */
    function GetOr(default: T): T {
      match this
      case Some(v) => v
      case None => default
    }
  }

  /** The outcome of an operation that either returns or throws an `Error`
      whose `message` is the string carried by `Failure`. */
  datatype Result<+R> = Success(value: R) | Failure(error: string)
}
